=== FILE: README.md ===
# Meeting-setup wizard: the `App` state machine

This project models the `App` component of a terminal meeting-setup wizard
(`app/src/App.jsx`). The component walks the user through the steps of a
flow definition. It records each answer under the step's id. After the
template selection it reveals the phases of the "processing" step one at a
time on a chain of timers. A 500 ms settle timer then switches to a summary
screen, where pressing Return ends the process.

The model is a pure transition system:

- `Flow` (flow.dfy): the configuration. It holds the steps (`id`, `type`
  as `stepType`, `options`, `steps` with each phase's `duration`) and the
  `templates` table. It provides `Array.prototype.find` over step ids and
  the template lookup. The step ids the code hard-codes ("meeting_name",
  "template_selection" and "processing") are defined here once, as written.
- `JsString` (jsstring.dfy): JavaScript's `trim`, which decides whether a
  text answer is accepted.
- `Wizard` (wizard.dfy): the seven `useState` values, the two variables the
  `processSteps` closure captures (`progressSteps` and its counter
  `stepIndex`), and the one pending `setTimeout`. It also holds the
  handlers `handleAnswer`, `startProgressSteps`/`processSteps`,
  `handleTextSubmit` and `handleTemplateSelect`, and the two timer callbacks.
- `View` (view.dfy): which screen the bordered box shows, whether the
  "Step: n of m" footer appears, which input widget is mounted, and what
  the summary resolves.
- `App` (app.dfy): one `Dispatch` over explicit events and `Run` over
  event lists. The events are `SetInput`, `TextSubmit`, `Select(i)`,
  `ProgressTick`, `Settle` and `Key`. A widget event reaches its handler
  only while that widget is mounted. A timer event does something only
  while that timer is pending.
- `Properties` (properties.dfy): the invariant of reachable states, the
  order in which phases are revealed, monotonicity, and the summary as an
  absorbing state.
- `Scenarios` (scenarios.dfy): concrete runs over small flows.

A handler that throws in the source becomes a `Fail` effect. This happens
when `currentStep` is undefined, or when the first "processing" step is
missing or has no `steps` list. `process.exit(0)` becomes the `Exit` effect.

The model follows the code where it departs from what a general wizard
engine would do:

- A general engine would give each step its own "next" rule. The code
  advances the index only after "meeting_name" and starts processing only
  after "template_selection". Any other step records its answer and stays
  put, so a second submission overwrites the first
  (`Scenarios.OtherIdsDoNotAdvance`). A flow whose first "processing" step is
  missing or has no `steps` list never reaches the summary.
- The position is not kept inside the flow. The code increments it
  unconditionally after "meeting_name", so it can run past the end. No
  widget is then mounted, and the footer still shows the counter.
- Choice values are never checked against the options. The model's menu
  event is "select the item at index i" of the options the menu was given,
  so the answer is always a listed value; an index out of range, including
  any index on an empty menu, reaches no handler.
- A flow whose first "processing" step is missing or has no `steps` list
  is not rejected up front. The code throws when reading `.steps` of
  `undefined` or `.length` of a missing list, and the model reports both
  as `Fail(NoProcessingStep)`.

Starting the processing sequence does not reset `progressCompleted`, as in
the source. The start can happen only once per run, so the flag is still
false at that point (`Properties.AnswerPreservesInv`).

## Model

| member | source | states |
|---|---|---|
| Flow.FindStep | app/src/App.jsx:57 | the result is the first index whose step has the id, and there is none exactly when no step has it |
| Flow.ProgressPhases | app/src/App.jsx:57-58 | the phases are present exactly when the first "processing" step exists and has a `steps` list, and they are that first step's list |
| Flow.TemplateKey | app/src/App.jsx:230 | the key is the recorded template answer, or "undefined" when none was recorded |
| Flow.LookupTemplate | app/src/App.jsx:230 | the lookup yields a template exactly when the key is in the table, and then yields that entry |
| JsString.Trim | app/src/App.jsx:81 | `trim` yields the empty string exactly when every character is ECMAScript whitespace; otherwise the result starts and ends with non-whitespace; it is an infix of the input whose cut-off prefix and suffix are all whitespace |
| Wizard.Init | app/src/App.jsx:27-33 | the session starts at step 0 with no answers, empty input, no flag set and no timer pending |
| Wizard.CurrentStep | app/src/App.jsx:36 | the current step exists exactly when the index is inside the flow, and is the step at that index |
| Wizard.ProcessSteps | app/src/App.jsx:61-75 | with the counter on a phase, that phase is shown and its timer armed; past the end, the progress is complete and the settle timer armed; nothing else changes |
| Wizard.StartProgressSteps | app/src/App.jsx:56-60 | it throws exactly when the first "processing" step is missing or has no `steps` list; otherwise it captures the phases, resets the counter to 0 and shows phase 0, or completes at once when there are no phases |
| Wizard.HandleAnswer | app/src/App.jsx:39-54 | the answer is stored under the current id and every other key is kept; "meeting_name" advances the index by exactly one and changes nothing else; "template_selection" sets `isProcessing` and resets the counter without moving the index, leaving `progressCompleted` alone when there are phases and the shown phase alone when there are none; any other id changes only the answers; it throws without a current step, and with a current step it throws exactly on the template selection when the first "processing" step is missing or has no `steps` list, with that fault |
| Wizard.HandleTextSubmit | app/src/App.jsx:80-85 | blank input is a complete no-op; otherwise it succeeds exactly when `handleAnswer` on the untrimmed input does, throwing with the same fault when that throws, and on success the untrimmed input is the stored answer, the rest follows `handleAnswer`, and the buffer is emptied |
| Wizard.HandleTemplateSelect | app/src/App.jsx:87-89 | selecting an item is exactly `handleAnswer` on the item's value: it is stored under the current id, it throws without a current step, and the text buffer is untouched |
| Wizard.ProgressTick | app/src/App.jsx:64-67 | without a pending phase timer nothing changes; otherwise the counter moves on by one and the next phase is shown, or the progress completes and the settle timer is armed |
| Wizard.Settle | app/src/App.jsx:70-73 | with the settle timer pending it clears `isProcessing` and sets `showSummary`; otherwise nothing changes |
| View.SummaryOf | app/src/App.jsx:229-270 | the summary shows the recorded meeting name if any, and the template under the selection key if the table has it, else nothing |
| View.AgendaOf | app/src/App.jsx:288-299 | the agenda is the resolved template's list, and empty when no template resolved |
| View.ScreenOf | app/src/App.jsx:388-392 | the progress screen appears exactly when processing, whatever `showSummary` is; the summary only when not processing and `showSummary` holds; the step screen only when neither flag holds; the summary screen shows the summary's lookups |
| View.Footer | app/src/App.jsx:397-401 | the footer appears exactly when neither flag holds and reads `currentStepIndex + 1` of `length - 1` |
| View.Mounted | app/src/App.jsx:92-151 | a text field is mounted exactly on the step screen of an existing "text" step, a menu over its options exactly on one of a "multiple_choice" step, and nothing otherwise |
| View.FooterWithStepScreen | app/src/App.jsx:388-401 | the footer is shown exactly when the step screen is |
| App.Dispatch | app/src/App.jsx:64-352 | a mounted text field's change sets the buffer and its submit runs `handleTextSubmit` (lines 124-125); a mounted menu's selection of a listed item runs `handleTemplateSelect` on it (line 147); a timer event runs its callback (lines 64-73); a key press never changes the state and exits exactly when `showSummary` holds and the key is Return (lines 348-352); no other event exits; events for an unmounted widget are no-ops; only `Settle` sets `showSummary` or clears `isProcessing`; `showSummary` and `progressCompleted` never revert |
| App.Run | app/src/App.jsx:69-73 | over any run, `showSummary` and `progressCompleted` never revert, and an exit happens only from the summary after a Return key press |
| Properties.InitSatisfiesInv | app/src/App.jsx:27-33 | the initial state is reachable-consistent: no timer, no progress, nothing shown |
| Properties.AnswerPreservesInv | app/src/App.jsx:46-49 | starting processing from the step screen yields a consistent state with exactly one timer pending |
| Properties.DispatchPreservesInv | app/src/App.jsx:39-89 | every event keeps the invariant: one timer pending while processing, the shown phase equals the closure counter, the summary has no timer and a recorded template answer |
| Properties.RunPreservesInv | app/src/App.jsx:39-89 | every run from a consistent state ends in a consistent state |
| Properties.ProgressStepAdvancesByAtMostOne | app/src/App.jsx:60-67 | in a reachable state an event moves the shown phase forward by zero or one, never back |
| Properties.ProgressStepNeverDecreases | app/src/App.jsx:60-67 | over any run from a reachable state the shown phase never decreases |
| Properties.RunOfTicks | app/src/App.jsx:64-67 | a run of k phase-timer events never exits or throws and ends in the state of k timer firings, so the phase-order results hold for event runs |
| Properties.TicksWhenIdle | app/src/App.jsx:68-74 | once no phase timer is pending, further ticks change nothing |
| Properties.TicksClosedForm | app/src/App.jsx:61-75 | from shown phase j, k ticks show phase j + k while it exists; afterwards the counter is one past the end, the last phase stays shown, the progress is complete and the settle timer armed |
| Properties.PhasesRevealedInOrder | app/src/App.jsx:56-78 | after the template answer the shown phase takes 0, 1, …, n-1 in order, each once, never beyond n-1; completion comes only after the last phase, and at once when n = 0 |
| Properties.SummaryStepIsInert | app/src/App.jsx:348-352 | in a reachable summary every event leaves the state unchanged, and only Return exits |
| Properties.SummaryIsAbsorbing | app/src/App.jsx:348-352 | from a reachable summary any run leaves the state unchanged and exits exactly when it contains a Return key press |
| Properties.SummaryShowsSelectedTemplate | app/src/App.jsx:230 | in a reachable summary the template shown is the one under the selected value, never the "undefined" fallback |
| Properties.ProgressScreenPhaseExists | app/src/App.jsx:157-159 | on a reachable progress screen the processing step exists and the shown phase indexes into its phases when there are any |
| Scenarios.FullSessionExits | app/src/App.jsx:39-89 | name, template, two phase ticks, settle and Return end in an exit with both answers recorded and the chosen template resolved |
| Scenarios.BlankSubmissionIgnored | app/src/App.jsx:80-85 | submitting whitespace on the first step leaves the whole state unchanged |
| Scenarios.OtherIdsDoNotAdvance | app/src/App.jsx:46-53 | steps with other ids do not advance, so a second text answer overwrites the first and no summary appears |
| Scenarios.MissingProcessingStepThrows | app/src/App.jsx:57-58 | selecting a template in a flow without a processing step throws |

## Left out

- Rendering through Ink and React is not modelled: layout, colours, `chalk`, the spinner, and the per-phase check marks. Only the screen choice, the footer, the mounted widget and the summary lookups are modelled.
- Loading the configuration file (app/src/App.jsx:16-22) is not modelled; the flow is a parameter.
- Milliseconds are not modelled. Phase `duration` values and the 500 ms settle delay only decide when a timer fires, which the `ProgressTick` and `Settle` events abstract. Scheduling races cannot arise because at most one timer is pending.
- `clearTerminal` and `process.exit` are left out as I/O. The exit is the `Exit` effect, and a run stops there.
- app/index.jsx is not part of this model. It holds raw-mode setup, the resize, exit and signal handlers, and the `render` call, all host-process plumbing.
- Keystroke editing inside `TextInput` is reduced to an opaque `SetInput(text)` event.
- One physical Return press reaches both the mounted widget and the exit guard; the model splits it into `TextSubmit`/`Select` and `Key(true)`. The two cannot interact, because the exit guard only acts on the summary screen, where no widget is mounted.
- `isLastStep` (app/src/App.jsx:37) is computed but never used.
- JavaScript property lookup also finds inherited keys, so `config.templates["constructor"]` is not `undefined`. The model treats the table as a plain map.
- A "multiple_choice" step without `options` throws while rendering. The model reads a missing list as an empty one.
- Step fields whose JSON values are not strings are not modelled. Template entries are likewise assumed to have a `name`, a `duration` and an `agenda` list; a resolved template without `agenda` makes `selectedTemplate?.agenda.map` (app/src/App.jsx:290) throw, which the model does not represent.
- Strings are sequences of Unicode scalar values here, while JavaScript strings are UTF-16 code units. This makes no difference to the model: every ECMAScript whitespace character is in the Basic Multilingual Plane, and answers are only stored and compared whole.
- A Return on a `SelectInput` whose `options` list is empty is not modelled. Whether the library then calls `onSelect`, so that app/src/App.jsx:88 reads `value` of `undefined` and throws, depends on `ink-select-input`, which is not part of this model; the model delivers no selection from an empty menu.
- React's batching and re-rendering are not modelled. Each event is handled against the state the previous event left.

=== FILE: app.dfy ===
/** The running component as one transition function over explicit events:
    keystroke edits, line submission, menu selection, the two kinds of timer
    callback, and key presses seen by the exit guard. */
module App {
  import opened Flow
  import opened Wizard
  import opened View

  /** The events that reach the component. */
  datatype Event =
    | SetInput(text: string)    // `TextInput` reports a new buffer
    | TextSubmit                // `TextInput` reports Enter
    | Select(item: nat)         // `SelectInput` reports the item at this index
    | ProgressTick              // the pending phase timer fires
    | Settle                    // the pending settle timer fires
    | Key(isReturn: bool)       // a key press reaches the `useInput` guard

  /** What an event does outside the state: nothing, `process.exit(0)`, or
      an exception thrown by a handler. */
  datatype Effect = Continue | Exit | Fail(fault: Fault)

  datatype Reaction = Reaction(state: State, effect: Effect)

  function FromOutcome(s: State, o: Outcome): (r: Reaction)
    ensures o.Ok? ==> r == Reaction(o.next, Continue)
    ensures o.Crash? ==> r == Reaction(s, Fail(o.fault))
  {
    match o
    case Ok(next) => Reaction(next, Continue)
    case Crash(f) => Reaction(s, Fail(f))
  }

  /** One event. Widget events are delivered only to the widget that is
      mounted; timer events only when that timer is pending. */
  function Dispatch(cfg: Config, s: State, e: Event): (r: Reaction)
    ensures e.Key? ==> r.state == s && (r.effect == Exit <==> s.showSummary && e.isReturn)
    ensures e.Key? && r.effect != Exit ==> r.effect == Continue
    ensures !e.Key? ==> r.effect != Exit
    ensures r.effect.Fail? ==> r.effect.fault == NoProcessingStep && r.state == s
    ensures e.SetInput? && Mounted(cfg, s) == TextField ==> r == Reaction(s.(inputValue := e.text), Continue)
    ensures e.TextSubmit? && Mounted(cfg, s) == TextField ==> r == FromOutcome(s, HandleTextSubmit(cfg, s))
    ensures e.Select? && Mounted(cfg, s).Menu? && e.item < |Mounted(cfg, s).items| ==>
      r == FromOutcome(s, HandleTemplateSelect(cfg, s, Mounted(cfg, s).items[e.item]))
    ensures e.ProgressTick? ==> r == Reaction(Wizard.ProgressTick(s), Continue)
    ensures e.Settle? ==> r == Reaction(Wizard.Settle(s), Continue)
    ensures (e.SetInput? || e.TextSubmit?) && Mounted(cfg, s) != TextField ==> r == Reaction(s, Continue)
    ensures e.Select? && !(Mounted(cfg, s).Menu? && e.item < |Mounted(cfg, s).items|) ==> r == Reaction(s, Continue)
    ensures !s.showSummary && r.state.showSummary ==> e == Settle
    ensures s.isProcessing && !r.state.isProcessing ==> e == Settle
    ensures s.showSummary ==> r.state.showSummary
    ensures s.progressCompleted ==> r.state.progressCompleted
  {
    match e
    case SetInput(text) =>
      if Mounted(cfg, s) == TextField then Reaction(s.(inputValue := text), Continue) else Reaction(s, Continue)
    case TextSubmit =>
      if Mounted(cfg, s) == TextField then FromOutcome(s, HandleTextSubmit(cfg, s)) else Reaction(s, Continue)
    case Select(i) =>
      (match Mounted(cfg, s)
       case Menu(items) =>
         if i < |items| then FromOutcome(s, HandleTemplateSelect(cfg, s, items[i])) else Reaction(s, Continue)
       case _ => Reaction(s, Continue))
    case ProgressTick => Reaction(Wizard.ProgressTick(s), Continue)
    case Settle => Reaction(Wizard.Settle(s), Continue)
    case Key(isReturn) => Reaction(s, if s.showSummary && isReturn then Exit else Continue)
  }

  /** A run of events from `s`, stopping at the first exit or exception. */
  function Run(cfg: Config, s: State, events: seq<Event>): (r: Reaction)
    decreases |events|
    ensures s.showSummary ==> r.state.showSummary
    ensures s.progressCompleted ==> r.state.progressCompleted
    ensures r.effect == Exit ==> r.state.showSummary && Key(true) in events
    ensures r.effect.Fail? ==> r.effect.fault == NoProcessingStep
  {
    if events == [] then Reaction(s, Continue)
    else
      var first := Dispatch(cfg, s, events[0]);
      if first.effect == Continue then Run(cfg, first.state, events[1..]) else first
  }
}

=== FILE: flow.dfy ===
/** The flow definition: the parsed configuration document the wizard walks
    through. It is read-only for the whole session. */
module Flow {

  /** The usual Some/None datatype, used for lookups that may miss. */
  datatype Option<+T> = None | Some(value: T)

  /** One labelled phase of the processing step (`label` in the configuration,
      `caption` here since `label` is a keyword); `duration` is in milliseconds
      and only decides when the next timer fires, which the model abstracts. */
  datatype Phase = Phase(id: string, caption: string, duration: int)

  /** One entry of a multiple-choice step. */
  datatype Choice = Choice(caption: string, value: string)

  /** One step of `flow.steps`. The configuration's `type` field is called
      `stepType` here because `type` is a keyword. `steps` is present only on
      the processing step; `options` is empty when the step has none. */
  datatype StepDef = StepDef(
    id: string,
    stepType: string,
    title: string,
    question: string,
    options: seq<Choice>,
    steps: Option<seq<Phase>>)

  /** An entry of the `templates` table consulted by the summary screen. */
  datatype Template = Template(name: string, duration: string, agenda: seq<string>)

  /** The parts of the configuration the wizard reads. */
  datatype Config = Config(steps: seq<StepDef>, templates: map<string, Template>)

  const TextType := "text"
  const MultipleChoiceType := "multiple_choice"
  const ProcessingId := "processing"
  const MeetingNameId := "meeting_name"
  const TemplateSelectionId := "template_selection"

  /** `steps.find(step => step.id === id)`, as an index, searching from `from`. */
  function FindFrom(steps: seq<StepDef>, id: string, from: nat): (r: Option<nat>)
    requires from <= |steps|
    decreases |steps| - from
    ensures r.Some? ==> from <= r.value < |steps| && steps[r.value].id == id
    ensures r.Some? ==> forall j :: from <= j < r.value ==> steps[j].id != id
    ensures r.None? <==> forall j :: from <= j < |steps| ==> steps[j].id != id
  {
    if from == |steps| then None
    else if steps[from].id == id then Some(from)
    else FindFrom(steps, id, from + 1)
  }

  /** The first step whose id is `id`, as `Array.prototype.find` returns it. */
  function FindStep(steps: seq<StepDef>, id: string): (r: Option<nat>)
    ensures r.Some? ==> r.value < |steps| && steps[r.value].id == id
    ensures r.Some? ==> forall j :: 0 <= j < r.value ==> steps[j].id != id
    ensures r.None? <==> forall j :: 0 <= j < |steps| ==> steps[j].id != id
  {
    FindFrom(steps, id, 0)
  }

  /** The `steps` list of the first step with id "processing". None when no
      such step exists or it has no `steps` field: reading `.steps` or
      `.length` then throws in the source. */
  function ProgressPhases(cfg: Config): (r: Option<seq<Phase>>)
    ensures r.Some? <==>
      exists i :: 0 <= i < |cfg.steps| && cfg.steps[i].id == ProcessingId && cfg.steps[i].steps.Some?
        && forall j :: 0 <= j < i ==> cfg.steps[j].id != ProcessingId
    ensures r.Some? ==>
      exists i :: 0 <= i < |cfg.steps| && cfg.steps[i].id == ProcessingId && cfg.steps[i].steps == r
        && forall j :: 0 <= j < i ==> cfg.steps[j].id != ProcessingId
  {
    match FindStep(cfg.steps, ProcessingId)
    case None => None
    case Some(i) => cfg.steps[i].steps
  }

  /** The key `config.templates[meetingData.template_selection]` reads: a
      missing answer is the JavaScript value `undefined`, which a property
      access turns into the key "undefined". */
  function TemplateKey(meetingData: map<string, string>): (k: string)
    ensures TemplateSelectionId in meetingData ==> k == meetingData[TemplateSelectionId]
    ensures TemplateSelectionId !in meetingData ==> k == "undefined"
  {
    if TemplateSelectionId in meetingData then meetingData[TemplateSelectionId] else "undefined"
  }

  /** A template lookup that yields nothing, rather than failing, when the
      key is absent (the summary's optional chaining). */
  function LookupTemplate(cfg: Config, key: string): (r: Option<Template>)
    ensures r.Some? <==> key in cfg.templates
    ensures r.Some? ==> r.value == cfg.templates[key]
  {
    if key in cfg.templates then Some(cfg.templates[key]) else None
  }
}

=== FILE: jsstring.dfy ===
/** JavaScript's `String.prototype.trim`, which decides whether a text answer
    is accepted. */
module JsString {

  /** ECMAScript's WhiteSpace and LineTerminator code points: the characters
      `trim` strips from both ends. */
  predicate IsWhitespace(c: char) {
    var n := c as int;
    || n == 0x09 || n == 0x0A || n == 0x0B || n == 0x0C || n == 0x0D
    || n == 0x20 || n == 0xA0 || n == 0x1680
    || (0x2000 <= n <= 0x200A)
    || n == 0x2028 || n == 0x2029 || n == 0x202F || n == 0x205F
    || n == 0x3000 || n == 0xFEFF
  }

  /** The index of the first non-whitespace character at or after `i`, or
      `|s|` when there is none. */
  function SkipLeading(s: string, i: nat): (j: nat)
    requires i <= |s|
    decreases |s| - i
    ensures i <= j <= |s|
    ensures forall k :: i <= k < j ==> IsWhitespace(s[k])
    ensures j < |s| ==> !IsWhitespace(s[j])
  {
    if i < |s| && IsWhitespace(s[i]) then SkipLeading(s, i + 1) else i
  }

  /** The end of `s[lo..j]` once its trailing whitespace is dropped. */
  function SkipTrailing(s: string, lo: nat, j: nat): (e: nat)
    requires lo <= j <= |s|
    decreases j
    ensures lo <= e <= j
    ensures forall k :: e <= k < j ==> IsWhitespace(s[k])
    ensures e > lo ==> !IsWhitespace(s[e - 1])
  {
    if j > lo && IsWhitespace(s[j - 1]) then SkipTrailing(s, lo, j - 1) else j
  }

  /** `s.trim()`: the infix of `s` left after dropping whitespace at both
      ends. It is empty exactly when `s` is all whitespace, and otherwise
      starts and ends with a non-whitespace character; everything cut off
      on either side is whitespace. */
  function Trim(s: string): (r: string)
    ensures r == [] <==> forall i :: 0 <= i < |s| ==> IsWhitespace(s[i])
    ensures r != [] ==> !IsWhitespace(r[0]) && !IsWhitespace(r[|r| - 1])
    ensures |r| <= |s|
    ensures exists lo, hi ::
              && 0 <= lo <= hi <= |s| && r == s[lo..hi]
              && (forall k :: 0 <= k < lo ==> IsWhitespace(s[k]))
              && (forall k :: hi <= k < |s| ==> IsWhitespace(s[k]))
  {
    var lo := SkipLeading(s, 0);
    var hi := SkipTrailing(s, lo, |s|);
    assert hi == lo ==> lo == |s|;
    s[lo..hi]
  }

  /** The falsy case of `s.trim()` in a condition. */
  predicate IsBlank(s: string) {
    Trim(s) == []
  }
}

=== FILE: properties.dfy ===
/** Properties of whole runs: the invariant every reachable state keeps, the
    order in which the processing phases are revealed, and the summary as an
    absorbing state. */
module Properties {
  import opened Flow
  import opened Wizard
  import opened View
  import opened App

  /** The phase index the progress screen shows once the counter has run
      past the end: the last phase, or 0 when there are none. */
  function LastPhase(phases: seq<Phase>): nat {
    if |phases| == 0 then 0 else |phases| - 1
  }

  /** What holds of every state reachable from `Init()`. Before processing
      starts nothing of the progress machinery has moved; while processing,
      exactly one timer is pending and the shown phase is the closure
      counter; after settling, the summary is up with no timer left. */
  ghost predicate Inv(cfg: Config, s: State) {
    && (!s.isProcessing && !s.showSummary ==>
          s.timer == NoTimer && !s.progressCompleted && s.currentProgressStep == 0)
    && (s.isProcessing || s.showSummary ==>
          ProgressPhases(cfg) == Some(s.progressSteps) && TemplateSelectionId in s.meetingData)
    && (s.isProcessing ==> !s.showSummary && s.timer != NoTimer)
    && (s.showSummary ==> s.progressCompleted && s.timer == NoTimer)
    && (s.timer == PhaseTimer ==>
          && s.isProcessing && !s.progressCompleted
          && s.stepIndex < |s.progressSteps| && s.currentProgressStep == s.stepIndex)
    && (s.timer == SettleTimer ==>
          s.isProcessing && s.progressCompleted && s.stepIndex == |s.progressSteps|)
    && (s.progressCompleted ==> s.currentProgressStep == LastPhase(s.progressSteps))
    && (s.currentProgressStep == 0 || s.currentProgressStep < |s.progressSteps|)
  }

  lemma InitSatisfiesInv(cfg: Config)
    ensures Inv(cfg, Init())
  {
  }

  /** Answering the template selection from a step screen starts processing
      in a state the invariant admits. */
  lemma AnswerPreservesInv(cfg: Config, s: State, answer: string)
    requires Inv(cfg, s) && !s.isProcessing && !s.showSummary
    requires HandleAnswer(cfg, s, answer).Ok?
    ensures Inv(cfg, HandleAnswer(cfg, s, answer).next)
  {
  }

  /** Every event keeps the invariant. */
  lemma DispatchPreservesInv(cfg: Config, s: State, e: Event)
    requires Inv(cfg, s)
    ensures Inv(cfg, Dispatch(cfg, s, e).state)
  {
  }

  /** Every run from a reachable state ends in a reachable state. */
  lemma {:induction false} RunPreservesInv(cfg: Config, s: State, events: seq<Event>)
    requires Inv(cfg, s)
    ensures Inv(cfg, Run(cfg, s, events).state)
    decreases |events|
  {
    if events != [] {
      DispatchPreservesInv(cfg, s, events[0]);
      var first := Dispatch(cfg, s, events[0]);
      if first.effect == Continue {
        RunPreservesInv(cfg, first.state, events[1..]);
      }
    }
  }

  /** The shown phase never moves backwards, and moves at most one phase per
      event. */
  lemma ProgressStepAdvancesByAtMostOne(cfg: Config, s: State, e: Event)
    requires Inv(cfg, s)
    ensures s.currentProgressStep <= Dispatch(cfg, s, e).state.currentProgressStep <= s.currentProgressStep + 1
  {
  }

  /** Over a whole run the shown phase never moves backwards. */
  lemma {:induction false} ProgressStepNeverDecreases(cfg: Config, s: State, events: seq<Event>)
    requires Inv(cfg, s)
    ensures s.currentProgressStep <= Run(cfg, s, events).state.currentProgressStep
    decreases |events|
  {
    if events != [] {
      ProgressStepAdvancesByAtMostOne(cfg, s, events[0]);
      DispatchPreservesInv(cfg, s, events[0]);
      var first := Dispatch(cfg, s, events[0]);
      if first.effect == Continue {
        ProgressStepNeverDecreases(cfg, first.state, events[1..]);
      }
    }
  }

  /** `k` firings of the phase timer. */
  function Ticks(s: State, k: nat): State
    decreases k
  {
    if k == 0 then s else Ticks(Wizard.ProgressTick(s), k - 1)
  }

  /** A run of `k` phase-timer events is `k` firings of the phase timer:
      it never exits or throws, so the phase-order results over `Ticks`
      hold for event runs. */
  lemma {:induction false} RunOfTicks(cfg: Config, s: State, k: nat)
    ensures Run(cfg, s, seq(k, _ => ProgressTick)) == Reaction(Ticks(s, k), Continue)
    decreases k
  {
    if k > 0 {
      var events: seq<Event> := seq(k, _ => ProgressTick);
      assert events[0] == ProgressTick;
      assert events[1..] == seq(k - 1, _ => ProgressTick);
      RunOfTicks(cfg, Wizard.ProgressTick(s), k - 1);
    }
  }

  /** With no phase timer pending, further ticks change nothing. */
  lemma {:induction false} TicksWhenIdle(s: State, k: nat)
    requires s.timer != PhaseTimer
    ensures Ticks(s, k) == s
    decreases k
  {
    if k > 0 {
      TicksWhenIdle(Wizard.ProgressTick(s), k - 1);
    }
  }

  /** Closed form of the phase timer chain: from a shown phase `j`, `k`
      ticks show phase `j + k` while it exists, and afterwards leave the
      counter one past the last phase, the last phase shown, the progress
      complete and the settle timer armed. */
  lemma {:induction false} TicksClosedForm(s: State, k: nat)
    requires s.timer == PhaseTimer && !s.progressCompleted
    requires s.stepIndex < |s.progressSteps| && s.currentProgressStep == s.stepIndex
    ensures s.stepIndex + k < |s.progressSteps| ==>
      Ticks(s, k) == s.(currentProgressStep := s.stepIndex + k, stepIndex := s.stepIndex + k)
    ensures s.stepIndex + k >= |s.progressSteps| ==>
      Ticks(s, k) == s.(currentProgressStep := |s.progressSteps| - 1, stepIndex := |s.progressSteps|,
                        progressCompleted := true, timer := SettleTimer)
    decreases k
  {
    if k > 0 {
      var t := Wizard.ProgressTick(s);
      if s.stepIndex + 1 < |s.progressSteps| {
        TicksClosedForm(t, k - 1);
      } else {
        TicksWhenIdle(t, k - 1);
      }
    }
  }

  /** Answering the template selection and then letting the phase timer
      fire: the shown phase takes the values 0, 1, ..., n - 1 in order, the
      progress is incomplete until the counter passes the last phase, and
      with no phases it is complete at once. */
  lemma PhasesRevealedInOrder(cfg: Config, s: State, answer: string)
    requires Inv(cfg, s) && !s.isProcessing && !s.showSummary
    requires CurrentStep(cfg, s).Some? && CurrentStep(cfg, s).value.id == TemplateSelectionId
    requires ProgressPhases(cfg).Some?
    ensures HandleAnswer(cfg, s, answer).Ok?
    ensures var start := HandleAnswer(cfg, s, answer).next;
      var n := |ProgressPhases(cfg).value|;
      && (forall k :: 0 <= k < n ==>
            Ticks(start, k).currentProgressStep == k && !Ticks(start, k).progressCompleted)
      && (forall k :: k >= n ==>
            Ticks(start, k).progressCompleted && Ticks(start, k).currentProgressStep == LastPhase(start.progressSteps)
            && Ticks(start, k).timer == SettleTimer)
      && (n == 0 ==> start.progressCompleted)
  {
    var start := HandleAnswer(cfg, s, answer).next;
    var n := |ProgressPhases(cfg).value|;
    if n == 0 {
      forall k: nat
        ensures Ticks(start, k) == start
      {
        TicksWhenIdle(start, k);
      }
    } else {
      forall k: nat
        ensures k < n ==> Ticks(start, k).currentProgressStep == k && !Ticks(start, k).progressCompleted
        ensures k >= n ==>
          Ticks(start, k).progressCompleted && Ticks(start, k).currentProgressStep == n - 1
          && Ticks(start, k).timer == SettleTimer
      {
        TicksClosedForm(start, k);
      }
    }
  }

  /** Once the summary is up, no event changes the state. */
  lemma SummaryStepIsInert(cfg: Config, s: State, e: Event)
    requires Inv(cfg, s) && s.showSummary
    ensures Dispatch(cfg, s, e).state == s
    ensures Dispatch(cfg, s, e).effect == (if e == Key(true) then Exit else Continue)
  {
  }

  /** The summary is absorbing: a run from it leaves the state as it is and
      exits exactly when a Return key press occurs. */
  lemma {:induction false} SummaryIsAbsorbing(cfg: Config, s: State, events: seq<Event>)
    requires Inv(cfg, s) && s.showSummary
    ensures Run(cfg, s, events).state == s
    ensures Run(cfg, s, events).effect == Exit <==> Key(true) in events
    ensures Run(cfg, s, events).effect != Exit ==> Run(cfg, s, events).effect == Continue
    decreases |events|
  {
    if events != [] {
      SummaryStepIsInert(cfg, s, events[0]);
      if events[0] != Key(true) {
        SummaryIsAbsorbing(cfg, s, events[1..]);
        assert events == [events[0]] + events[1..];
      }
    }
  }

  /** In a reachable summary the template shown is the one stored under the
      selected template's value, never the "undefined" fallback key. */
  lemma SummaryShowsSelectedTemplate(cfg: Config, s: State)
    requires Inv(cfg, s) && s.showSummary
    ensures ScreenOf(cfg, s).SummaryScreen?
    ensures ScreenOf(cfg, s).summary.template == LookupTemplate(cfg, s.meetingData[TemplateSelectionId])
  {
  }

  /** In a reachable progress screen the shown phase exists whenever the
      processing step has phases (`progressSteps[currentProgressStep]`). */
  lemma ProgressScreenPhaseExists(cfg: Config, s: State)
    requires Inv(cfg, s) && s.isProcessing
    ensures ProgressPhases(cfg).Some?
    ensures |ProgressPhases(cfg).value| > 0 ==> ScreenOf(cfg, s).current < |ProgressPhases(cfg).value|
  {
  }
}

=== FILE: scenarios.dfy ===
/** Concrete runs over small flows shaped like the shipped configuration. */
module Scenarios {
  import opened Flow
  import opened Wizard
  import opened View
  import opened App

  /** A meeting-name text step, a one-option template menu and a processing
      step with two phases. */
  function MeetingFlow(): Config {
    Config(
      [ StepDef("meeting_name", "text", "Meeting Name", "What is the meeting called?", [], None),
        StepDef("template_selection", "multiple_choice", "Template", "Pick a template",
                [Choice("Standup", "standup")], None),
        StepDef("processing", "processing", "Processing", "", [],
                Some([Phase("p1", "Preparing", 10), Phase("p2", "Finishing", 10)])) ],
      map["standup" := Template("Daily Standup", "15 minutes", ["Yesterday", "Today", "Blockers"])])
  }

  /** Running a list that starts with an event that neither exits nor throws
      is running the rest from the state that event leaves. */
  lemma RunStep(cfg: Config, s: State, e: Event, rest: seq<Event>)
    requires Dispatch(cfg, s, e).effect == Continue
    ensures Run(cfg, s, [e] + rest) == Run(cfg, Dispatch(cfg, s, e).state, rest)
  {
    assert ([e] + rest)[1..] == rest;
  }

  function Named(): State {
    Init().(meetingData := map["meeting_name" := "Standup"], currentStepIndex := 1)
  }

  function Selected(): State {
    Named().(meetingData := map["meeting_name" := "Standup", "template_selection" := "standup"],
             isProcessing := true, progressSteps := MeetingFlow().steps[2].steps.value)
  }

  lemma NameAccepted()
    ensures Dispatch(MeetingFlow(), Init().(inputValue := "Standup"), TextSubmit) == Reaction(Named(), Continue)
  {
    assert !JsString.IsWhitespace("Standup"[0]);
  }

  lemma TemplateStartsProcessing()
    ensures Dispatch(MeetingFlow(), Named(), Select(0)) == Reaction(Selected().(timer := PhaseTimer), Continue)
  {
    assert FindStep(MeetingFlow().steps, ProcessingId) == Some(2);
  }

  lemma PhasesThenSettle()
    ensures var s := Selected().(timer := PhaseTimer);
      var t1 := Dispatch(MeetingFlow(), s, ProgressTick).state;
      var t2 := Dispatch(MeetingFlow(), t1, ProgressTick).state;
      var t3 := Dispatch(MeetingFlow(), t2, Settle).state;
      && t1 == s.(currentProgressStep := 1, stepIndex := 1)
      && t2 == s.(currentProgressStep := 1, stepIndex := 2, progressCompleted := true, timer := SettleTimer)
      && t3 == t2.(isProcessing := false, showSummary := true, timer := NoTimer)
      && Dispatch(MeetingFlow(), t3, Key(true)) == Reaction(t3, Exit)
  {
  }

  /** The whole wizard: type a name, submit it, pick the template, let both
      phase timers and the settle timer fire, press Return. */
  lemma FullSessionExits()
    ensures var r := Run(MeetingFlow(), Init(),
                         [SetInput("Standup"), TextSubmit, Select(0), ProgressTick, ProgressTick, Settle, Key(true)]);
      && r.effect == Exit
      && r.state.meetingData == map["meeting_name" := "Standup", "template_selection" := "standup"]
      && r.state.showSummary && !r.state.isProcessing && r.state.progressCompleted
      && r.state.currentStepIndex == 1 && r.state.inputValue == ""
      && ScreenOf(MeetingFlow(), r.state).summary.template == Some(MeetingFlow().templates["standup"])
  {
    var cfg := MeetingFlow();
    var s0 := Selected().(timer := PhaseTimer);
    var t1 := s0.(currentProgressStep := 1, stepIndex := 1);
    var t2 := s0.(currentProgressStep := 1, stepIndex := 2, progressCompleted := true, timer := SettleTimer);
    var t3 := t2.(isProcessing := false, showSummary := true, timer := NoTimer);
    NameAccepted();
    TemplateStartsProcessing();
    PhasesThenSettle();
    RunStep(cfg, Init(), SetInput("Standup"),
            [TextSubmit, Select(0), ProgressTick, ProgressTick, Settle, Key(true)]);
    RunStep(cfg, Init().(inputValue := "Standup"), TextSubmit,
            [Select(0), ProgressTick, ProgressTick, Settle, Key(true)]);
    RunStep(cfg, Named(), Select(0), [ProgressTick, ProgressTick, Settle, Key(true)]);
    RunStep(cfg, s0, ProgressTick, [ProgressTick, Settle, Key(true)]);
    RunStep(cfg, t1, ProgressTick, [Settle, Key(true)]);
    RunStep(cfg, t2, Settle, [Key(true)]);
    assert Run(cfg, t3, [Key(true)]) == Reaction(t3, Exit);
  }

  /** A whitespace-only submission on the first step changes nothing. */
  lemma BlankSubmissionIgnored()
    ensures var s := Init().(inputValue := " \t ");
      Dispatch(MeetingFlow(), s, TextSubmit) == Reaction(s, Continue)
  {
    var s := Init().(inputValue := " \t ");
    assert JsString.IsBlank(s.inputValue);
  }

  function TwoTextSteps(): Config {
    Config([StepDef("name", "text", "", "", [], None), StepDef("topic", "text", "", "", [], None)], map[])
  }

  function Answered(text: string): State {
    Init().(meetingData := map["name" := text])
  }

  lemma NameAnswered(s: State, text: string)
    requires s == Init() || s == Answered("a")
    requires text == "a" || text == "b"
    ensures Dispatch(TwoTextSteps(), s, SetInput(text)) == Reaction(s.(inputValue := text), Continue)
    ensures Dispatch(TwoTextSteps(), s.(inputValue := text), TextSubmit) == Reaction(Answered(text), Continue)
  {
    assert !JsString.IsWhitespace(text[0]);
    assert s.meetingData["name" := text] == map["name" := text];
  }

  /** Two text steps whose ids are neither "meeting_name" nor
      "template_selection": the index never advances, so the second
      submission overwrites the first step's answer and no summary appears. */
  lemma OtherIdsDoNotAdvance()
    ensures var r := Run(TwoTextSteps(), Init(), [SetInput("a"), TextSubmit, SetInput("b"), TextSubmit]);
      && r.effect == Continue
      && r.state.currentStepIndex == 0
      && r.state.meetingData == map["name" := "b"]
      && !r.state.showSummary && !r.state.isProcessing
  {
    var cfg := TwoTextSteps();
    NameAnswered(Init(), "a");
    NameAnswered(Answered("a"), "b");
    RunStep(cfg, Answered("a").(inputValue := "b"), TextSubmit, []);
    RunStep(cfg, Answered("a"), SetInput("b"), [TextSubmit]);
    RunStep(cfg, Init().(inputValue := "a"), TextSubmit, [SetInput("b"), TextSubmit]);
    RunStep(cfg, Init(), SetInput("a"), [TextSubmit, SetInput("b"), TextSubmit]);
  }

  /** A flow whose "template_selection" step exists but which has no
      "processing" step: selecting a template throws. */
  lemma MissingProcessingStepThrows()
    ensures var cfg := Config([StepDef("template_selection", "multiple_choice", "", "", [Choice("A", "a")], None)], map[]);
      Dispatch(cfg, Init(), Select(0)).effect == Fail(NoProcessingStep)
  {
    var cfg := Config([StepDef("template_selection", "multiple_choice", "", "", [Choice("A", "a")], None)], map[]);
    assert FindStep(cfg.steps, ProcessingId).None?;
  }
}

=== FILE: view.dfy ===
/** What the component's returned tree shows for a state: which screen is
    inside the bordered box, whether the step counter footer appears, which
    input widget is mounted, and what the summary resolves. */
module View {
  import opened Flow
  import opened Wizard

  /** The summary's dynamic parts: the meeting name and the resolved
      template, each absent when the lookup misses. */
  datatype Summary = Summary(name: Option<string>, template: Option<Template>)

  /** The content of the bordered box. */
  datatype Screen =
    | ProgressScreen(current: nat, completed: bool)
    | SummaryScreen(summary: Summary)
    | StepScreen(step: Option<StepDef>)

  /** The footer text "Step: number of total". */
  datatype StepCounter = StepCounter(number: int, total: int)

  /** The input widget whose callbacks can fire. */
  datatype Widget = NoWidget | TextField | Menu(items: seq<Choice>)

  /** `renderSummary`'s lookups: `meetingData.meeting_name` and
      `config.templates[meetingData.template_selection]`. */
  function SummaryOf(cfg: Config, s: State): (r: Summary)
    ensures r.name.Some? <==> MeetingNameId in s.meetingData
    ensures r.name.Some? ==> r.name.value == s.meetingData[MeetingNameId]
    ensures r.template.Some? <==> TemplateKey(s.meetingData) in cfg.templates
    ensures r.template.Some? ==> r.template.value == cfg.templates[TemplateKey(s.meetingData)]
  {
    var name := if MeetingNameId in s.meetingData then Some(s.meetingData[MeetingNameId]) else None;
    Summary(name, LookupTemplate(cfg, TemplateKey(s.meetingData)))
  }

  /** The agenda lines the summary lists; none when no template resolved. */
  function AgendaOf(summary: Summary): (lines: seq<string>)
    ensures summary.template.None? ==> lines == []
    ensures summary.template.Some? ==> lines == summary.template.value.agenda
  {
    match summary.template
    case None => []
    case Some(t) => t.agenda
  }

  /** The screen chosen by `isProcessing ? progress : showSummary ? summary : step`. */
  function ScreenOf(cfg: Config, s: State): (r: Screen)
    ensures s.isProcessing <==> r.ProgressScreen?
    ensures r.ProgressScreen? ==> r.current == s.currentProgressStep && r.completed == s.progressCompleted
    ensures r.SummaryScreen? <==> !s.isProcessing && s.showSummary
    ensures r.SummaryScreen? ==> r.summary == SummaryOf(cfg, s)
    ensures r.StepScreen? <==> !s.isProcessing && !s.showSummary
    ensures r.StepScreen? ==> r.step == CurrentStep(cfg, s)
  {
    if s.isProcessing then ProgressScreen(s.currentProgressStep, s.progressCompleted)
    else if s.showSummary then SummaryScreen(SummaryOf(cfg, s))
    else StepScreen(CurrentStep(cfg, s))
  }

  /** The footer, shown only when neither flag holds; its total leaves out
      one step (the processing step of the shipped flow). */
  function Footer(cfg: Config, s: State): (r: Option<StepCounter>)
    ensures r.Some? <==> !s.showSummary && !s.isProcessing
    ensures r.Some? ==> r.value.number == s.currentStepIndex + 1 && r.value.total == |cfg.steps| - 1
  {
    if !s.showSummary && !s.isProcessing then Some(StepCounter(s.currentStepIndex + 1, |cfg.steps| - 1))
    else None
  }

  /** `renderStep` mounts a `TextInput` for a "text" step and a `SelectInput`
      over the options for a "multiple_choice" step; nothing otherwise. */
  function Mounted(cfg: Config, s: State): (w: Widget)
    ensures w != NoWidget ==> ScreenOf(cfg, s).StepScreen? && CurrentStep(cfg, s).Some?
    ensures w == TextField <==>
      ScreenOf(cfg, s).StepScreen? && CurrentStep(cfg, s).Some? && CurrentStep(cfg, s).value.stepType == TextType
    ensures w.Menu? <==>
      ScreenOf(cfg, s).StepScreen? && CurrentStep(cfg, s).Some? && CurrentStep(cfg, s).value.stepType == MultipleChoiceType
    ensures w.Menu? ==> w.items == CurrentStep(cfg, s).value.options
  {
    match ScreenOf(cfg, s)
    case StepScreen(Some(step)) =>
      if step.stepType == TextType then TextField
      else if step.stepType == MultipleChoiceType then Menu(step.options)
      else NoWidget
    case _ => NoWidget
  }

  /** The footer appears exactly when the step screen does. */
  lemma FooterWithStepScreen(cfg: Config, s: State)
    ensures Footer(cfg, s).Some? <==> ScreenOf(cfg, s).StepScreen?
  {
  }
}

=== FILE: wizard.dfy ===
/** The state of the `App` component and its event handlers: answering a
    step, submitting text, selecting a template, and the chained timers that
    reveal the processing phases one at a time. */
module Wizard {
  import opened Flow
  import opened JsString

  /** The one `setTimeout` callback that is outstanding, if any: the next
      phase advance of `processSteps`, or the settle callback that leaves the
      progress screen. */
  datatype Timer = NoTimer | PhaseTimer | SettleTimer

  /** The component's `useState` values, plus the two variables the
      `processSteps` closure captures (`progressSteps`, and the counter
      `stepIndex`) and the pending timer. */
  datatype State = State(
    currentStepIndex: nat,
    meetingData: map<string, string>,
    isProcessing: bool,
    showSummary: bool,
    inputValue: string,
    currentProgressStep: nat,
    progressCompleted: bool,
    progressSteps: seq<Phase>,
    stepIndex: nat,
    timer: Timer)

  /** The initial `useState` values; no timer is pending. */
  function Init(): (s: State)
    ensures s.meetingData == map[] && s.currentStepIndex == 0 && s.inputValue == ""
    ensures !s.isProcessing && !s.showSummary && !s.progressCompleted
    ensures s.currentProgressStep == 0 && s.timer == NoTimer
  {
    State(0, map[], false, false, "", 0, false, [], 0, NoTimer)
  }

  /** Why a handler throws: `currentStep` is undefined (the index is past the
      end of the flow), or the first "processing" step is missing or has no
      `steps` list. */
  datatype Fault = NoCurrentStep | NoProcessingStep

  /** A handler either produces the next state or throws. */
  datatype Outcome = Ok(next: State) | Crash(fault: Fault)

  /** `flowSteps[currentStepIndex]`, undefined past the end. */
  function CurrentStep(cfg: Config, s: State): (r: Option<StepDef>)
    ensures r.Some? <==> s.currentStepIndex < |cfg.steps|
    ensures r.Some? ==> r.value == cfg.steps[s.currentStepIndex]
  {
    if s.currentStepIndex < |cfg.steps| then Some(cfg.steps[s.currentStepIndex]) else None
  }

  /** `newMeetingData` records `answer` under `key` and keeps every other key
      as it was in `before`. */
  predicate Records(before: map<string, string>, after: map<string, string>, key: string, answer: string) {
    && after.Keys == before.Keys + {key}
    && after[key] == answer
    && forall k :: k in before && k != key ==> after[k] == before[k]
  }

  /** One call of `processSteps` with the closure counter at `s.stepIndex`:
      show that phase and arm its timer, or, once past the last phase, mark
      the progress complete and arm the settle timer. Nothing else changes. */
  function ProcessSteps(s: State): (r: State)
    ensures s.stepIndex < |s.progressSteps| ==>
      r.currentProgressStep == s.stepIndex && r.timer == PhaseTimer && r.progressCompleted == s.progressCompleted
    ensures s.stepIndex >= |s.progressSteps| ==>
      r.progressCompleted && r.timer == SettleTimer && r.currentProgressStep == s.currentProgressStep
    ensures r.(currentProgressStep := s.currentProgressStep, progressCompleted := s.progressCompleted, timer := s.timer) == s
  {
    if s.stepIndex < |s.progressSteps| then
      s.(currentProgressStep := s.stepIndex, timer := PhaseTimer)
    else
      s.(progressCompleted := true, timer := SettleTimer)
  }

  /** `startProgressSteps`: capture the processing step's phases and run
      `processSteps` with a fresh counter of 0. */
  function StartProgressSteps(cfg: Config, s: State): (r: Outcome)
    ensures r.Crash? <==> ProgressPhases(cfg).None?
    ensures r.Crash? ==> r.fault == NoProcessingStep
    ensures r.Ok? ==> r.next.progressSteps == ProgressPhases(cfg).value && r.next.stepIndex == 0
    ensures r.Ok? && |r.next.progressSteps| > 0 ==>
      r.next.currentProgressStep == 0 && r.next.timer == PhaseTimer && r.next.progressCompleted == s.progressCompleted
    ensures r.Ok? && |r.next.progressSteps| == 0 ==>
      r.next.progressCompleted && r.next.timer == SettleTimer && r.next.currentProgressStep == s.currentProgressStep
    ensures r.Ok? ==>
      r.next.(currentProgressStep := s.currentProgressStep, progressCompleted := s.progressCompleted,
              timer := s.timer, progressSteps := s.progressSteps, stepIndex := s.stepIndex) == s
  {
    match ProgressPhases(cfg)
    case None => Crash(NoProcessingStep)
    case Some(phases) => Ok(ProcessSteps(s.(progressSteps := phases, stepIndex := 0)))
  }

  /** `handleAnswer`: record the answer under the current step's id, then
      start processing after the template selection, advance one step after
      the meeting name, and do nothing more for any other step. */
  function HandleAnswer(cfg: Config, s: State, answer: string): (r: Outcome)
    ensures CurrentStep(cfg, s).None? ==> r == Crash(NoCurrentStep)
    ensures CurrentStep(cfg, s).Some? ==>
      var id := CurrentStep(cfg, s).value.id;
      && (r.Crash? <==> id == TemplateSelectionId && ProgressPhases(cfg).None?)
      && (r.Crash? ==> r.fault == NoProcessingStep)
      && (r.Ok? ==> Records(s.meetingData, r.next.meetingData, id, answer))
      && (r.Ok? ==> r.next.inputValue == s.inputValue && r.next.showSummary == s.showSummary)
      && (id == MeetingNameId ==>
            r.Ok? && r.next == s.(meetingData := r.next.meetingData, currentStepIndex := s.currentStepIndex + 1))
      && (id == TemplateSelectionId && r.Ok? ==>
            && r.next.isProcessing
            && r.next.currentStepIndex == s.currentStepIndex
            && r.next.stepIndex == 0
            && r.next.progressSteps == ProgressPhases(cfg).value
            && (|r.next.progressSteps| > 0 ==>
                  r.next.currentProgressStep == 0 && r.next.timer == PhaseTimer
                  && r.next.progressCompleted == s.progressCompleted)
            && (|r.next.progressSteps| == 0 ==>
                  r.next.progressCompleted && r.next.timer == SettleTimer
                  && r.next.currentProgressStep == s.currentProgressStep))
      && (id != MeetingNameId && id != TemplateSelectionId ==>
            r.Ok? && r.next == s.(meetingData := r.next.meetingData))
  {
    match CurrentStep(cfg, s)
    case None => Crash(NoCurrentStep)
    case Some(step) =>
      var recorded := s.(meetingData := s.meetingData[step.id := answer]);
      if step.id == TemplateSelectionId then
        StartProgressSteps(cfg, recorded.(isProcessing := true))
      else if step.id == MeetingNameId then
        Ok(recorded.(currentStepIndex := s.currentStepIndex + 1))
      else
        Ok(recorded)
  }

  /** `handleTextSubmit`: blank input (empty after `trim`) is ignored
      entirely; otherwise the untrimmed buffer is the answer and the buffer
      is cleared. */
  function HandleTextSubmit(cfg: Config, s: State): (r: Outcome)
    ensures IsBlank(s.inputValue) ==> r == Ok(s)
    ensures !IsBlank(s.inputValue) && CurrentStep(cfg, s).None? ==> r == Crash(NoCurrentStep)
    ensures !IsBlank(s.inputValue) && CurrentStep(cfg, s).Some? && r.Ok? ==>
      && Records(s.meetingData, r.next.meetingData, CurrentStep(cfg, s).value.id, s.inputValue)
      && r.next.inputValue == ""
    ensures !IsBlank(s.inputValue) && r.Ok? ==>
      HandleAnswer(cfg, s, s.inputValue) == Ok(r.next.(inputValue := s.inputValue))
    ensures !IsBlank(s.inputValue) ==> (r.Ok? <==> HandleAnswer(cfg, s, s.inputValue).Ok?)
    ensures !IsBlank(s.inputValue) && r.Crash? ==> r == HandleAnswer(cfg, s, s.inputValue)
  {
    if IsBlank(s.inputValue) then Ok(s)
    else
      match HandleAnswer(cfg, s, s.inputValue)
      case Crash(f) => Crash(f)
      case Ok(next) => Ok(next.(inputValue := ""))
  }

  /** `handleTemplateSelect`: the selected item's value is the answer, handled
      exactly as `handleAnswer` handles it; the text buffer is left alone. */
  function HandleTemplateSelect(cfg: Config, s: State, item: Choice): (r: Outcome)
    ensures r == HandleAnswer(cfg, s, item.value)
    ensures CurrentStep(cfg, s).None? ==> r == Crash(NoCurrentStep)
    ensures CurrentStep(cfg, s).Some? && r.Ok? ==>
      && Records(s.meetingData, r.next.meetingData, CurrentStep(cfg, s).value.id, item.value)
      && r.next.inputValue == s.inputValue
  {
    HandleAnswer(cfg, s, item.value)
  }

  /** The phase timer fires: the closure counter moves on and `processSteps`
      runs again. Without a pending phase timer nothing happens. */
  function ProgressTick(s: State): (r: State)
    ensures s.timer != PhaseTimer ==> r == s
    ensures s.timer == PhaseTimer ==> r.stepIndex == s.stepIndex + 1
    ensures s.timer == PhaseTimer && r.stepIndex < |s.progressSteps| ==>
      r.currentProgressStep == r.stepIndex && r.timer == PhaseTimer && r.progressCompleted == s.progressCompleted
    ensures s.timer == PhaseTimer && r.stepIndex >= |s.progressSteps| ==>
      r.progressCompleted && r.timer == SettleTimer && r.currentProgressStep == s.currentProgressStep
    ensures r.(currentProgressStep := s.currentProgressStep, progressCompleted := s.progressCompleted,
               timer := s.timer, stepIndex := s.stepIndex) == s
  {
    if s.timer == PhaseTimer then ProcessSteps(s.(stepIndex := s.stepIndex + 1)) else s
  }

  /** The settle timer fires: leave the progress screen for the summary.
      Without a pending settle timer nothing happens. */
  function Settle(s: State): (r: State)
    ensures s.timer != SettleTimer ==> r == s
    ensures s.timer == SettleTimer ==> !r.isProcessing && r.showSummary && r.timer == NoTimer
    ensures r.(isProcessing := s.isProcessing, showSummary := s.showSummary, timer := s.timer) == s
  {
    if s.timer == SettleTimer then s.(isProcessing := false, showSummary := true, timer := NoTimer) else s
  }
}
